=== FILE: README.md ===
# LibrarySystem: a verified model of the book catalogue's hash table

`GroupProject.java` keeps its books in `LibrarySystem`. This class is an
open-addressing hash table of `Book` records with double hashing, a prime
capacity that grows when the table is full, and a first-in first-out queue
of the books removed from the table ("borrowed").

This project models that class in Dafny and proves what its operations do.

- **Primes** (`primes.dfy`)
  - `IsPrime` and `GetNextPrime` are the loops of `isPrime` and `getNextPrime`, proved against the definition of a prime.
  - Euclid's argument (a prime factor of n! + 1) proves that `getNextPrime` terminates.
- **Probing** (`probing.dfy`)
  - The table's slots as a value (`seq<Option<Book>>`).
  - The probe formula of `doubleHashing`.
  - `LiveBooks`, the books in the occupied slots.
  - `SearchFrom`, a reference definition of `searchBook`'s walk.
  - The lemmas the operations rely on. The main one is coverage: in a table of odd capacity, a key's probe sequence visits every slot within `capacity` probes.
- **Library** (`library.dfy`)
  - The class `LibrarySystem` with the Java fields, over an `array<Option<Book>>`.
  - Members for the constructors, `isLibraryEmpty`, `loadFactor`, the three hash functions, `addBookData`, `deleteBookData`, `searchBook`, `enqueue` and `resizeTheTable`.
  - The operations that change the table (the constructors, `addBookData`, `deleteBookData` and the private `resizeTheTable`) establish or keep the object invariant `Valid()`, and `searchBook` relies on it:
    - the capacity is the array's length, odd and at least 3;
    - `booksInTheLibrary` is the number of occupied slots;
    - `borrowed` is the length of the queue.
- **Arithmetic** (`arithmetic.dfy`): the facts about division that these proofs use.

## Behaviour of the Java code that the model reproduces

- **Division by zero.** `secondaryHash` scans from the live count down to 1 and keeps the last prime it meets. That is always 2, so the step is `2 - key % 2`. With fewer than two books no prime is met, and `key % 0` throws `ArithmeticException`.
  - The model returns `DivisionByZero` in that case.
  - `searchBook` computes the step before its loop, so it always throws with fewer than two books.
  - `addBookData` and `deleteBookData` throw only when they need a second probe.
- **Probe order.** Insert and delete probe the home slot twice (`doubleHashing(key, 0)` is the home slot again) before stepping. Search steps straight away. Both visit the same slots in the same order.
- **Load factor.** `loadFactor` divides two `int`s, so it is 0 until the table is full and 1 when it is. The table therefore grows only when every slot is taken.
- **Resize.** `resizeTheTable` rehashes through `primaryHash` and `doubleHashing`. Both still read the length of the old array, so each book lands on the first empty slot of its probe sequence taken modulo the old capacity, below the old capacity. `Probing.Rehashed` is that loop as a value.
  - Searches after a resize probe modulo the new capacity. `ResizedTableHidesKeys` and `RehashedOldCapacityHidesBook` describe the table between the resize and the insert that `addBookData` always makes right after it (`resizeTheTable` is private): a search then reports missing any key whose home slot in the new table is at or above the old capacity. The inserted book may land on such a key's probe path, so the observable case is the example below. See Findings.
  - Example: keys 3, 4 and 5 fill a table of capacity 3. Adding key 6 grows it to 7 slots, with 3, 4 and 5 still in slots 0 to 2, and then stores 6 in its home slot 6. A search for key 3 starts at its home slot 3, which is empty, and answers nothing.
- **No tombstones.** A delete empties its slot outright. A search right after a successful delete therefore reports the key missing (`DeleteThenSearch`), even when another book with the same key lies further along the probe sequence. After a delete, a search for another key can also stop early at the hole, so no "search finds every book" property is claimed after deletions.

Other facts about the code that the model follows:

- **One key.** The class header promises search by title, author or ISBN (GroupProject.java:35), but the table is keyed on a single number per book. The `authors` array it also writes to is never declared (see Left out).
- **Delete result.** `deleteBookData` answers a boolean and appends the book passed in, not the one found in the slot, to the borrowed queue (GroupProject.java:236-240).
- **Insert failure.** With fewer than two books, an insert whose home slot is taken divides by zero (GroupProject.java:217-218, 284-294).

## Model

| member | source | states |
|---|---|---|
| `Primes.PrimeIffTrialDivision` | GroupProject.java:302-314 | trial division by every d >= 2 with d * d <= n decides primality: a number is prime exactly when it exceeds 1 and passes the test |
| `Primes.IsPrime` | GroupProject.java:302-314 | the loop answers true exactly when the number exceeds 1 and no d from 2 with d * d <= number divides it, which is exactly when the number is prime |
| `Primes.PrimeAtLeast` | GroupProject.java:322-327 | above every integer there is a prime, so getNextPrime's upward scan stops |
| `Primes.GetNextPrime` | GroupProject.java:322-327 | the result is prime, at least the argument, and no integer between the argument and the result is prime |
| `Primes.PrimeAboveTwoIsOdd` | GroupProject.java:331 | the new capacity, a prime at least twice an odd capacity of at least 3, is odd |
| `Probing.Step` | GroupProject.java:284-294 | the step secondaryHash yields with at least two books (prime 2, so 2 - key mod 2) is 1 or 2, and 1 exactly for odd keys: the probe walk always moves |
| `Probing.ProbeSlot` | GroupProject.java:297-299 | probe number a of a key lies in [0, capacity), and probe 0 is the key's home slot key mod capacity |
| `Probing.ProbeCovers` | GroupProject.java:217-220 | with odd capacity every slot is probe number a for some a < capacity, so the probe loops of insert and resize reach any empty slot |
| `Probing.EvenCapacityProbeStaysEven` | GroupProject.java:178-180 | with an even capacity an even key only ever probes even slots, so an insert can probe forever |
| `Probing.NoLiveBooksIffAllEmpty` | GroupProject.java:198-204 | a table holds no books exactly when every slot is empty |
| `Probing.LiveBooksPlace` | GroupProject.java:222-224 | storing a book in an empty slot adds exactly that book and one to the count |
| `Probing.LiveBooksClear` | GroupProject.java:238-239 | emptying an occupied slot removes exactly its book and one from the count |
| `Probing.PassesOverAll` | GroupProject.java:235-245 | a delete walk that passed over capacity probes of an odd-capacity table has seen every slot hold a book with another key |
| `Probing.FullTableDeleteProbesForever` | GroupProject.java:235-245 | on a full 3-slot table with keys 0, 1 and 2, every probe of the delete loop for key 3 finds a book with another key, so the loop as written never answers false; it spins until the 32-bit probe arithmetic overflows |
| `Probing.SearchFrom` | GroupProject.java:255-269 | the search walk answers either nothing or a book from the table whose key is the one asked for |
| `Probing.SearchFindsInsert` | GroupProject.java:249-269 | a search right after an insert into an odd-capacity table finds a book with the inserted key |
| `Probing.SearchStopsAtHole` | GroupProject.java:255-262 | a search that passes only books with other keys and then meets an empty slot answers nothing |
| `Probing.SearchAfterDeleteMisses` | GroupProject.java:230-269 | after a delete empties the first slot holding the key along its probe sequence, having passed only books with other keys, a search for the key answers nothing; with no tombstone, a second book with the same key further along the sequence is hidden too |
| `Probing.ResizedTableHidesKeys` | GroupProject.java:339-349 | in the table as resizeTheTable leaves it, before addBookData's insert that follows, a search for a key whose new home slot is at or above the old capacity answers nothing |
| `Probing.FirstEmptyFrom` | GroupProject.java:339-345 | the first probe number, from a on and below the modulus, whose slot is empty, or the modulus when there is none: every probe before it is taken |
| `Probing.FirstEmptyFound` | GroupProject.java:339-345 | with an odd modulus, fewer books than the modulus and nothing at or above it, the rehash probe finds an empty slot below the modulus |
| `Probing.Place` | GroupProject.java:336-346 | one round of the rehash loop as a value: an empty old slot changes nothing and no taken slot of the new table is overwritten. When none of the book's first cap probes is empty it drops the book, where the Java loop would keep probing; PlaceKeepsBooks and RehashedKeepsBooks show this cannot happen with an odd modulus and room below it |
| `Probing.Rehashed` | GroupProject.java:335-347 | resizeTheTable's loop as a value, placing the old slots in order into newLen empty slots; its own contract states only the length, and its meaning is given by RehashedKeepsBooks (exactly the old books, none at or above the modulus) and RehashedStep (each book on its first empty probe) |
| `Probing.PlaceKeepsBooks` | GroupProject.java:336-346 | one round of the rehash loop adds exactly the old slot's book, if any, and keeps the slots at or above the modulus empty |
| `Probing.RehashedKeepsBooks` | GroupProject.java:335-347 | the rehash of a whole table, modulo an odd capacity no smaller than its number of books, holds exactly the old books and nothing at or above the capacity |
| `Probing.RehashedStep` | GroupProject.java:336-346 | rehashing one more old slot leaves the new table alone for an empty slot and stores the book on its first empty probe otherwise |
| `Probing.RehashedRoom` | GroupProject.java:336-346 | before an occupied old slot is rehashed, the new table holds fewer books than the old one and nothing at or above the old capacity |
| `Probing.SearchSurvivesPlace` | GroupProject.java:255-269 | filling an empty slot keeps a successful search successful |
| `Probing.PlaceFindable` | GroupProject.java:339-346 | placing a book modulo the table's own odd length, with room left, keeps every book findable by a search for its key |
| `Probing.RehashedFindsAll` | GroupProject.java:330-349 | a rehash modulo the new table's own odd length leaves every book findable, which the resize as written does not do |
| `Probing.RehashedOldCapacityHidesBook` | GroupProject.java:330-349 | the rehash modulo the old capacity keeps a book whose new home slot is at or above the old capacity, yet a search for its key answers nothing |
| `Library.LibrarySystem.constructor` | GroupProject.java:178-185 | a fresh, empty table of the given capacity with an empty queue and zero counters, satisfying the object invariant |
| `Library.LibrarySystem.Default` | GroupProject.java:174-176 | the same with DEFAULT_CAPACITY = 41 slots |
| `Library.LibrarySystem.IsLibraryEmpty` | GroupProject.java:198-204 | the counter test answers true exactly when every slot is empty |
| `Library.LibrarySystem.LoadFactor` | GroupProject.java:317-319 | the integer-division load factor is 0 or 1, and reaches the 0.75 threshold exactly when every slot is taken |
| `Library.LibrarySystem.PrimaryHash` | GroupProject.java:279-281 | the home slot lies in [0, capacity) and is probe 0 of the key |
| `Library.LibrarySystem.SecondaryHash` | GroupProject.java:284-294 | the prime scan yields step 2 - key mod 2, which is 1 or 2, when there are at least two books, and a division by zero otherwise |
| `Library.LibrarySystem.DoubleHashing` | GroupProject.java:297-299 | with at least two books the result is probe number s of the key, lies in [0, capacity) and for s = 0 is the home slot; with fewer the call divides by zero |
| `Library.LibrarySystem.Enqueue` | GroupProject.java:273-276 | the book joins the tail of the borrowed queue and the borrowed count grows by one |
| `Library.LibrarySystem.PlaceBook` | GroupProject.java:213-226 | the book goes into the first empty slot of its probe sequence and nothing else changes except the count, one higher; it divides by zero exactly when there are at most one book and a taken home slot, and then nothing changes |
| `Library.LibrarySystem.AddBookData` | GroupProject.java:207-227 | a full table is grown first into the rehash Rehashed of the old slots (see ResizeTheTable); then the book is stored in the first empty slot of its probe sequence, every other slot is unchanged, the count grows by one and the answer is true; the division by zero happens exactly when there are at most one book and a taken home slot, and then nothing changes |
| `Library.LibrarySystem.LendFrom` | GroupProject.java:236-240 | the matching slot is emptied, the count drops by one, and the book passed in joins the borrowed queue |
| `Library.LibrarySystem.DeleteBookData` | GroupProject.java:230-246 | true: the first slot along the probe sequence holding the key was emptied, the count dropped by one and the book joined the queue. False: the walk met an empty slot after passing books with other keys, or no slot holds the key; nothing changed. It divides by zero exactly when there are at most one book and a home slot holding another key |
| `Library.LibrarySystem.SearchBook` | GroupProject.java:249-270 | changes nothing; divides by zero exactly when there are at most one book; otherwise answers the reference walk SearchFrom, so a book with the key or nothing |
| `Library.LibrarySystem.RehashProbe` | GroupProject.java:339-345 | the rehash probe walk, modulo the old capacity, stops at its first empty slot of the new table: it returns that slot and its probe number, below the old capacity, and every earlier probe is taken |
| `Library.LibrarySystem.RehashEntry` | GroupProject.java:335-347 | one round of the rehash loop takes the new table from the rehash of old slots 0 .. i-1 to the rehash of old slots 0 .. i |
| `Library.LibrarySystem.RehashAll` | GroupProject.java:335-347 | after the rehash loop the new table is exactly Rehashed of the old slots modulo the old capacity (so, by RehashedKeepsBooks, exactly the old books, all below the old capacity) |
| `Library.LibrarySystem.ResizeTheTable` | GroupProject.java:330-351 | the capacity becomes the smallest prime at least twice the old one, the table is a fresh array equal to Rehashed of the old slots modulo the old capacity, holding exactly the old books, every slot at or above the old capacity is empty, and the object invariant holds |
| `Library.DeleteThenSearch` | GroupProject.java:230-269 | a search right after a successful delete divides by zero exactly when fewer than two books are left, and otherwise reports the key missing |
| `Library.AddThenSearch` | GroupProject.java:249-269 | a search right after a successful insert divides by zero exactly when there are fewer than two books, and otherwise finds a book with the inserted key |

## Left out

- `GroupProject.main` (GroupProject.java:354-394) is a demonstration driver that prints to the console. `searchBook`'s "Key not found!!" messages are output only; the model returns None.
- The `Book` class (GroupProject.java:63-162), its constructor, getters and `toString`, is reduced to a datatype with all seven Java fields (`version` and `edition` included, which the constructor never sets). Its non-negative `key` stands for `numericValue()` and `getKey()`, which the Java code calls but never defines. Negative keys, where Java's `%` would give negative indices, are not modelled.
- The `authors` array (GroupProject.java:182, 223) is never declared, never read and never resized, so it is omitted. Were it declared at the constructor's capacity, every insert right after a resize would throw at line 223. A resize happens only on a full table, and the rehash fills slots 0 to the old capacity minus 1 exactly, so that insert always lands at or above the old capacity: after the book is stored (line 222) and before the count goes up (line 224). The Resize example above is such a case (key 6 goes to slot 6), though the search result there is unchanged.
- `Entry(key, value)` in `resizeTheTable` (GroupProject.java:337-346) is an undefined type. The model moves the book itself.
- The getters `libraryStorageCapacity` and `booksInTheLibrary` (GroupProject.java:188-195) are not separate members: the model reads the array's length and the field directly.
- The `LinkedList` behind the borrowed queue is a sequence with append.
- `loadFactor`'s `double` is a `real` that is 0 or 1. `Math.sqrt` in `isPrime` is the test d * d <= n.
- 32-bit `int` overflow is not modelled: integers are unbounded. The affected operations are the capacity doubling, the probe arithmetic and the counters.
- Library.LibrarySystem.constructor: requires an odd capacity of at least 3, which the Java constructor does not check:
  - capacity 0 makes `primaryHash` divide by zero;
  - an even capacity lets an insert probe forever (`EvenCapacityProbeStaysEven`);
  - capacity 1 grows to the even capacity 2.
- Library.LibrarySystem.DeleteBookData: gives up after the capacity's worth of probes, where the Java loop keeps probing; see Findings.
- Exceptions other than the division by zero are not modelled. Most come from the undefined members above. One does not: a delete on a full table without the key probes until `s * secondaryHash` (GroupProject.java:298) overflows, after about 2^31 probes (2^30 for an even key). The index then goes negative and `libraryEntries[index]` (GroupProject.java:235) throws `ArrayIndexOutOfBoundsException`.

## Findings

| source | as written | input that shows it | evidently intended | confidence | as-written member | corrected member |
|---|---|---|---|---|---|---|
| GroupProject.java:235-245 | the delete loop continues while the probed slot is occupied and has no bound on the number of probes | a table of capacity 3 holding books with keys 0, 1 and 2 (reachable with three inserts), then a delete of key 3: every probe meets a book with another key, so the loop never answers false: it spins until the 32-bit product `s * secondaryHash` overflows and the negative index throws ArrayIndexOutOfBoundsException | give up after the capacity's worth of probes, as searchBook does, and answer false | not executed | `Probing.FullTableDeleteProbesForever` | `Library.LibrarySystem.DeleteBookData` |
| GroupProject.java:330-349 | the resize rehashes each book through primaryHash and doubleHashing, which take the key modulo the old array's length, so every book lands below the old capacity of the larger table | keys 3, 4 and 5 fill a table of capacity 3; adding key 6 grows it to 7 slots with 3, 4 and 5 in slots 0 to 2; a search for key 3 starts at its new home slot 3, which is empty, and answers nothing | rehash modulo the new capacity, so that a search finds every book | not executed | `Probing.RehashedOldCapacityHidesBook` | `Probing.RehashedFindsAll` |

The class keeps the resize as written, since `addBookData` and the searches after it behave that way: `Library.LibrarySystem.ResizeTheTable` equals `Rehashed` modulo the old capacity. The corrected rehash is `Rehashed` with the new capacity as modulus, and `Probing.RehashedFindsAll` proves that every book stays findable under it.

=== FILE: arithmetic.dfy ===
/** Facts about Euclidean division that the hash-table arithmetic relies on.
    Keys, capacities and counts in the table are never negative, so Dafny's
    Euclidean `/` and `%` agree with Java's truncating operators wherever the
    model uses them. */
module Arithmetic {

  /** A product with a factor of at least one is at least the other factor. */
  lemma MulAtLeast(p: int, k: int)
    requires p > 0 && k >= 1
    ensures p * k >= p
  {
    assert p * k == p * (k - 1) + p;
  }

  /** Quotient and remainder of a division by a positive number are unique. */
  lemma ModUnique(a: int, p: int, q: int, r: int)
    requires p > 0 && 0 <= r < p && a == p * q + r
    ensures a % p == r && a / p == q
  {
    var q', r' := a / p, a % p;
    assert a == p * q' + r';
    assert p * (q - q') == r' - r;
    if q - q' >= 1 {
      MulAtLeast(p, q - q');
    } else if q' - q >= 1 {
      MulAtLeast(p, q' - q);
    }
  }

  /** d divides every multiple of itself. */
  lemma MultipleMod(d: int, x: int)
    requires d > 0
    ensures (d * x) % d == 0
  {
    ModUnique(d * x, d, x, 0);
  }
}

=== FILE: library.dfy ===
/** LibrarySystem: an open-addressing hash table of books with double
    hashing, grown to the next prime above twice its capacity when full, and
    a first-in first-out queue of the books removed from it (borrowed). */
module Library {
  import opened Arithmetic
  import opened Primes
  import opened Results
  import opened Probing

  const DEFAULT_CAPACITY := 41
  const LOAD_FACTOR_THRESHOLD := 0.75
  const RESIZE := 2

  class LibrarySystem {
    var borrowedBooks: seq<Book>
    var libraryCapacity: int
    var booksInTheLibrary: int
    var borrowed: int
    var libraryEntries: array<Option<Book>>

    /** The object invariant: the capacity is the array's length and odd,
        the count is the number of occupied slots, and `borrowed` counts the
        borrowed queue. */
    ghost predicate Valid()
      reads this, libraryEntries
    {
      && libraryCapacity == libraryEntries.Length
      && libraryCapacity >= 3 && libraryCapacity % 2 == 1
      && booksInTheLibrary == |LiveBooks(libraryEntries[..])|
      && borrowed == |borrowedBooks|
    }

    /** An empty library with the given number of slots. */
    constructor (libraryCapacity: int)
      requires libraryCapacity >= 3 && libraryCapacity % 2 == 1
      ensures Valid() && fresh(libraryEntries)
      ensures this.libraryCapacity == libraryCapacity
      ensures forall i :: 0 <= i < libraryEntries.Length ==> libraryEntries[i].None?
      ensures booksInTheLibrary == 0 && borrowedBooks == [] && borrowed == 0
    {
      this.libraryCapacity := libraryCapacity;
      libraryEntries := new Option<Book>[libraryCapacity](_ => None);
      borrowedBooks := [];
      booksInTheLibrary := 0;
      borrowed := 0;
      new;
      NoLiveBooksIffAllEmpty(libraryEntries[..]);
    }

    /** An empty library with DEFAULT_CAPACITY slots. */
    constructor Default()
      ensures Valid() && fresh(libraryEntries)
      ensures libraryCapacity == DEFAULT_CAPACITY
      ensures forall i :: 0 <= i < libraryEntries.Length ==> libraryEntries[i].None?
      ensures booksInTheLibrary == 0 && borrowedBooks == [] && borrowed == 0
    {
      libraryCapacity := DEFAULT_CAPACITY;
      libraryEntries := new Option<Book>[DEFAULT_CAPACITY](_ => None);
      borrowedBooks := [];
      booksInTheLibrary := 0;
      borrowed := 0;
      new;
      NoLiveBooksIffAllEmpty(libraryEntries[..]);
    }

    /** isLibraryEmpty answers from the counter; by the invariant that is
        the same as every slot being empty. */
    function IsLibraryEmpty(): (r: bool)
      reads this, libraryEntries
      requires Valid()
      ensures r <==> forall i :: 0 <= i < libraryEntries.Length ==> libraryEntries[i].None?
    {
      NoLiveBooksIffAllEmpty(libraryEntries[..]);
      booksInTheLibrary == 0
    }

    /** loadFactor divides two ints before converting to double, so it is 0
        until the table is full and 1 when it is: the threshold 0.75 is
        reached exactly when every slot is taken. */
    function LoadFactor(): (f: real)
      reads this, libraryEntries
      requires Valid()
      ensures f == 0.0 || f == 1.0
      ensures f >= LOAD_FACTOR_THRESHOLD <==> booksInTheLibrary == libraryEntries.Length
    {
      var cap := libraryEntries.Length;
      if booksInTheLibrary < cap then
        ModUnique(booksInTheLibrary, cap, 0, booksInTheLibrary);
        (booksInTheLibrary / cap) as real
      else
        ModUnique(booksInTheLibrary, cap, 1, 0);
        (booksInTheLibrary / cap) as real
    }

    /** primaryHash: the key's home slot, taken modulo the length of the
        current array (inside a resize, still the old one). */
    function PrimaryHash(primary: nat): (h: nat)
      reads this
      requires libraryEntries.Length > 0
      ensures h < libraryEntries.Length
      ensures h == ProbeSlot(primary, libraryEntries.Length, 0)
    {
      primary % libraryEntries.Length
    }

    /** secondaryHash scans count, count - 1, ..., 1 and keeps the last prime
        it meets, the smallest prime up to the count; it then takes
        `prime - key % prime`. With fewer than two books no prime is met and
        the `%` by zero throws. */
    method SecondaryHash(secondary: nat) returns (r: Completion<nat>)
      requires booksInTheLibrary >= 0
      ensures r == if booksInTheLibrary >= 2 then Returned(Step(secondary)) else DivisionByZero
      ensures r.Returned? ==> 1 <= r.value <= 2
    {
      var prime := 0;
      for s := 0 to booksInTheLibrary
        invariant prime == 0 ==> forall q :: booksInTheLibrary - s < q <= booksInTheLibrary ==> !Prime(q)
        invariant prime != 0 ==> Prime(prime) && booksInTheLibrary - s < prime <= booksInTheLibrary
        invariant prime != 0 ==> forall q :: booksInTheLibrary - s < q < prime ==> !Prime(q)
      {
        var isPrime := IsPrime(booksInTheLibrary - s);
        if isPrime {
          prime := booksInTheLibrary - s;
        }
      }
      assert Prime(2) && !Prime(1);
      if prime == 0 {
        return DivisionByZero;
      }
      r := Returned(prime - secondary % prime);
    }

    /** doubleHashing: probe number s of the key, modulo the length of the
        current array. Probe 0 is the home slot again; it still calls
        secondaryHash, and so throws whenever that does. */
    method DoubleHashing(resolution: nat, s: nat) returns (r: Completion<nat>)
      requires booksInTheLibrary >= 0 && libraryEntries.Length > 0
      ensures r == if booksInTheLibrary >= 2 then Returned(ProbeSlot(resolution, libraryEntries.Length, s)) else DivisionByZero
      ensures r.Returned? ==> r.value < libraryEntries.Length
      ensures r.Returned? && s == 0 ==> r.value == PrimaryHash(resolution)
    {
      var step := SecondaryHash(resolution);
      if step.DivisionByZero? {
        return DivisionByZero;
      }
      r := Returned((PrimaryHash(resolution) + s * step.value) % libraryEntries.Length);
    }

    /** The part of addBookData after the resize check: walk the key's
        probe sequence (home slot, home slot again, then one step at a time)
        to the first empty slot and store the book there; `a` is the number
        of the probe that found it. With fewer than two books a taken home
        slot makes the second probe divide by zero. */
    method PlaceBook(book: Book) returns (r: Completion<bool>, ghost a: nat)
      requires Valid() && booksInTheLibrary < libraryCapacity
      modifies libraryEntries, this`booksInTheLibrary
      ensures Valid()
      ensures r.DivisionByZero? <==>
                old(booksInTheLibrary) <= 1 && old(libraryEntries[ProbeSlot(book.key, libraryEntries.Length, 0)]).Some?
      ensures r.DivisionByZero? ==> libraryEntries[..] == old(libraryEntries[..]) && booksInTheLibrary == old(booksInTheLibrary)
      ensures r.Returned? ==>
                var t := old(libraryEntries[..]);
                && r.value
                && FirstEmptyProbe(t, book.key, a)
                && libraryEntries[..] == t[ProbeSlot(book.key, |t|, a) := Some(book)]
                && booksInTheLibrary == old(booksInTheLibrary) + 1
                && multiset(LiveBooks(libraryEntries[..])) == multiset(LiveBooks(t)) + multiset{book}
    {
      ghost var t := libraryEntries[..];
      var key := book.key;
      var index := PrimaryHash(key);
      var addition := 0;
      ghost var free := FreeSlot(t);
      ghost var last := ProbeCovers(key, libraryCapacity, free);
      a := 0;
      while libraryEntries[index].Some?
        modifies {}
        invariant libraryEntries[..] == t
        invariant index == ProbeSlot(key, libraryCapacity, a)
        invariant a <= last && (addition == 0 ==> a == 0) && (addition > 0 ==> a == addition - 1)
        invariant addition == 0 || booksInTheLibrary >= 2
        invariant forall c :: 0 <= c < a ==> t[ProbeSlot(key, |t|, c)].Some?
        decreases last + 1 - addition
      {
        var next := DoubleHashing(key, addition);
        if next.DivisionByZero? {
          return DivisionByZero, a;
        }
        index := next.value;
        addition := addition + 1;
        a := addition - 1;
      }
      LiveBooksPlace(t, index, book);
      libraryEntries[index] := Some(book);
      assert libraryEntries[..] == t[index := Some(book)];
      booksInTheLibrary := booksInTheLibrary + 1;
      r := Returned(true);
    }

    /** addBookData: grow the table first when the integer load factor has
        reached the threshold (the table is full), then place the book on
        the first empty slot of its probe sequence. `probed` is the table
        the probe walk runs over, the grown one after a resize. */
    method AddBookData(book: Book) returns (r: Completion<bool>, ghost probed: Slots, ghost a: nat)
      requires Valid()
      modifies this, libraryEntries
      ensures Valid()
      ensures borrowedBooks == old(borrowedBooks) && borrowed == old(borrowed)
      ensures |probed| == libraryEntries.Length
      ensures old(booksInTheLibrary) < old(libraryCapacity) ==>
                libraryEntries == old(libraryEntries) && probed == old(libraryEntries[..])
      ensures old(booksInTheLibrary) == old(libraryCapacity) ==>
                && fresh(libraryEntries)
                && IsNextPrime(old(libraryCapacity) * RESIZE, |probed|)
                && probed == Rehashed(old(libraryEntries[..]), old(libraryCapacity), |probed|)
                && multiset(LiveBooks(probed)) == multiset(LiveBooks(old(libraryEntries[..])))
                && forall i :: old(libraryCapacity) <= i < |probed| ==> probed[i].None?
      ensures r.DivisionByZero? <==> old(booksInTheLibrary) <= 1 && probed[ProbeSlot(book.key, |probed|, 0)].Some?
      ensures r.DivisionByZero? ==> libraryEntries[..] == probed && booksInTheLibrary == old(booksInTheLibrary)
      ensures r.Returned? ==>
                && r.value
                && FirstEmptyProbe(probed, book.key, a)
                && libraryEntries[..] == probed[ProbeSlot(book.key, |probed|, a) := Some(book)]
                && booksInTheLibrary == old(booksInTheLibrary) + 1
                && multiset(LiveBooks(libraryEntries[..])) == multiset(LiveBooks(old(libraryEntries[..]))) + multiset{book}
    {
      if LoadFactor() >= LOAD_FACTOR_THRESHOLD {
        ResizeTheTable();
      }
      probed := libraryEntries[..];
      r, a := PlaceBook(book);
    }

    /** The hit branch of deleteBookData: append the book passed in to the
        borrowed queue, clear the slot holding the match and count one book
        fewer. */
    method LendFrom(index: nat, book: Book)
      requires Valid() && index < libraryEntries.Length && libraryEntries[index].Some?
      modifies this`borrowedBooks, this`borrowed, this`booksInTheLibrary, libraryEntries
      ensures Valid()
      ensures libraryEntries[..] == old(libraryEntries[..])[index := None]
      ensures booksInTheLibrary == old(booksInTheLibrary) - 1
      ensures multiset(LiveBooks(libraryEntries[..])) ==
              multiset(LiveBooks(old(libraryEntries[..]))) - multiset{old(libraryEntries[index].value)}
      ensures borrowedBooks == old(borrowedBooks) + [book] && borrowed == old(borrowed) + 1
    {
      Enqueue(book);
      LiveBooksClear(libraryEntries[..], index);
      libraryEntries[index] := None;
      booksInTheLibrary := booksInTheLibrary - 1;
    }

    /** deleteBookData: walk the key's probe sequence while the slots are
        taken; on the first book with the key, clear its slot, append the
        book passed in to the borrowed queue and answer true; on an empty
        slot answer false. The walk gives up after the capacity's worth of
        distinct probes, as searchBook does (see Findings in the README:
        without that bound the walk on a full table that lacks the key never
        answers false: over unbounded integers it never ends, and with 32-bit
        ints it ends in an out-of-bounds index once the probe arithmetic
        overflows). `a` is the number of the probe the walk stopped at. */
    method DeleteBookData(book: Book) returns (r: Completion<bool>, ghost a: nat)
      requires Valid()
      modifies this`borrowedBooks, this`borrowed, this`booksInTheLibrary, libraryEntries
      ensures Valid()
      ensures r.DivisionByZero? <==> old(booksInTheLibrary) <= 1 && DeleteProbeMovesOn(old(libraryEntries[..]), book.key, 0)
      ensures r != Returned(true) ==>
                && libraryEntries[..] == old(libraryEntries[..])
                && booksInTheLibrary == old(booksInTheLibrary)
                && borrowedBooks == old(borrowedBooks) && borrowed == old(borrowed)
      ensures r == Returned(true) ==>
                var t, i := old(libraryEntries[..]), ProbeSlot(book.key, libraryCapacity, a);
                && PassesOver(t, book.key, a)
                && t[i].Some? && t[i].value.key == book.key
                && libraryEntries[..] == t[i := None]
                && booksInTheLibrary == old(booksInTheLibrary) - 1
                && multiset(LiveBooks(libraryEntries[..])) == multiset(LiveBooks(t)) - multiset{t[i].value}
                && borrowedBooks == old(borrowedBooks) + [book] && borrowed == old(borrowed) + 1
      ensures r == Returned(false) ==>
                var t := old(libraryEntries[..]);
                || (PassesOver(t, book.key, a) && t[ProbeSlot(book.key, |t|, a)].None?)
                || forall i :: 0 <= i < |t| ==> t[i].Some? && t[i].value.key != book.key
    {
      ghost var t := libraryEntries[..];
      var key := book.key;
      var index := PrimaryHash(key);
      var deletion := 0;
      a := 0;
      while libraryEntries[index].Some? && deletion <= libraryCapacity
        invariant libraryEntries[..] == t && booksInTheLibrary == old(booksInTheLibrary)
        invariant borrowedBooks == old(borrowedBooks) && borrowed == old(borrowed)
        invariant index == ProbeSlot(key, libraryCapacity, a)
        invariant deletion <= libraryCapacity + 1
        invariant (deletion == 0 ==> a == 0) && (deletion > 0 ==> a == deletion - 1)
        invariant deletion == 0 || booksInTheLibrary >= 2
        invariant PassesOver(t, key, a)
        decreases libraryCapacity + 1 - deletion
      {
        if libraryEntries[index].value.key == key {
          LendFrom(index, book);
          return Returned(true), a;
        }
        var next := DoubleHashing(key, deletion);
        if next.DivisionByZero? {
          return DivisionByZero, a;
        }
        index := next.value;
        deletion := deletion + 1;
        a := deletion - 1;
      }
      if deletion > libraryCapacity {
        PassesOverAll(t, key);
      }
      r := Returned(false);
    }

    /** searchBook: walk the key's probe sequence from the home slot, at
        most the capacity's worth of probes; an empty slot or the end of the
        walk answers null (None), the first book with the key is the answer.
        The step is computed up front, so with fewer than two books the
        search always divides by zero. */
    method SearchBook(book: Book) returns (r: Completion<Option<Book>>)
      requires Valid()
      ensures r.DivisionByZero? <==> booksInTheLibrary <= 1
      ensures r.Returned? ==> r.value == SearchFrom(libraryEntries[..], book.key, 0)
    {
      var key := book.key;
      var primaryIndex := PrimaryHash(key);
      var secondaryIndex := SecondaryHash(key);
      if secondaryIndex.DivisionByZero? {
        return DivisionByZero;
      }
      var retrieve := 0;
      while retrieve < libraryCapacity
        invariant SearchFrom(libraryEntries[..], key, retrieve) == SearchFrom(libraryEntries[..], key, 0)
      {
        var index := (primaryIndex + retrieve * secondaryIndex.value) % libraryCapacity;
        assert index == ProbeSlot(key, libraryCapacity, retrieve);
        if libraryEntries[index].None? {
          return Returned(None);
        } else if libraryEntries[index].value.key == key {
          return Returned(libraryEntries[index]);
        }
        retrieve := retrieve + 1;
      }
      r := Returned(None);
    }

    /** enqueue: append to the tail of the borrowed queue and count it. */
    method Enqueue(book: Book)
      modifies this`borrowedBooks, this`borrowed
      ensures borrowedBooks == old(borrowedBooks) + [book]
      ensures borrowed == old(borrowed) + 1
    {
      borrowedBooks := borrowedBooks + [book];
      borrowed := borrowed + 1;
    }

    /** The probe walk of resizeTheTable's loop for a book with the given
        key: from the home slot, modulo the length of the current (old)
        array, to the first empty slot of newTable; `probe` is the number of
        the probe that found it. newTable holds fewer books than the current
        array, all below the current capacity, so an empty slot is reached,
        and any collision means there are at least two books, so the step is
        defined. */
    method RehashProbe(newTable: array<Option<Book>>, key: nat) returns (newIndex: nat, ghost probe: nat)
      requires libraryCapacity == libraryEntries.Length && libraryCapacity % 2 == 1
      requires libraryCapacity <= newTable.Length
      requires |LiveBooks(newTable[..])| < booksInTheLibrary <= libraryCapacity
      requires forall j :: libraryCapacity <= j < newTable.Length ==> newTable[j].None?
      ensures probe < libraryCapacity && newIndex == ProbeSlot(key, libraryCapacity, probe)
      ensures newTable[newIndex].None?
      ensures forall c :: 0 <= c < probe ==> newTable[ProbeSlot(key, libraryCapacity, c)].Some?
    {
      newIndex := PrimaryHash(key);
      var sizer := 0;
      ghost var free := RoomBelow(newTable[..], libraryCapacity);
      ghost var last := ProbeCovers(key, libraryCapacity, free);
      probe := 0;
      while newTable[newIndex].Some?
        invariant newIndex == ProbeSlot(key, libraryCapacity, probe)
        invariant probe <= last && (sizer == 0 ==> probe == 0) && (sizer > 0 ==> probe == sizer - 1)
        invariant forall c :: 0 <= c < probe ==> newTable[ProbeSlot(key, libraryCapacity, c)].Some?
        decreases last + 1 - sizer
      {
        assert booksInTheLibrary >= 2 by {
          LiveBooksClear(newTable[..], newIndex);
        }
        var next := DoubleHashing(key, sizer);
        newIndex := next.value;
        sizer := sizer + 1;
        probe := sizer - 1;
      }
    }

    /** One round of resizeTheTable's loop: the entry in slot i of the
        current array, when there is one, is stored on the first empty slot
        of newTable along its probe sequence. newTable goes from the rehash
        of slots 0 .. i-1 to the rehash of slots 0 .. i. */
    method RehashEntry(newTable: array<Option<Book>>, i: nat)
      requires libraryCapacity == libraryEntries.Length && libraryCapacity % 2 == 1
      requires booksInTheLibrary == |LiveBooks(libraryEntries[..])|
      requires i < libraryEntries.Length && newTable != libraryEntries
      requires libraryCapacity <= newTable.Length
      requires newTable[..] == Rehashed(libraryEntries[..i], libraryCapacity, newTable.Length)
      modifies newTable
      ensures newTable[..] == Rehashed(libraryEntries[..i + 1], libraryCapacity, newTable.Length)
    {
      var entry := libraryEntries[i];
      if entry.None? {
        RehashedStep(libraryEntries[..], i, libraryCapacity, newTable.Length, 0);
        return;
      }
      RehashedRoom(libraryEntries[..], i, newTable.Length);
      var newIndex, probe := RehashProbe(newTable, entry.value.key);
      RehashedStep(libraryEntries[..], i, libraryCapacity, newTable.Length, probe);
      newTable[newIndex] := entry;
    }

    /** The loop of resizeTheTable: every book of the current array is
        rehashed into newTable, which starts empty and is at least as long. */
    method RehashAll(newTable: array<Option<Book>>)
      requires libraryCapacity == libraryEntries.Length && libraryCapacity % 2 == 1
      requires booksInTheLibrary == |LiveBooks(libraryEntries[..])|
      requires newTable != libraryEntries
      requires libraryCapacity <= newTable.Length
      requires forall j :: 0 <= j < newTable.Length ==> newTable[j].None?
      modifies newTable
      ensures newTable[..] == Rehashed(libraryEntries[..], libraryCapacity, newTable.Length)
    {
      assert newTable[..] == Rehashed(libraryEntries[..0], libraryCapacity, newTable.Length);
      for i := 0 to libraryEntries.Length
        invariant newTable[..] == Rehashed(libraryEntries[..i], libraryCapacity, newTable.Length)
      {
        RehashEntry(newTable, i);
      }
      assert libraryEntries[..libraryEntries.Length] == libraryEntries[..];
    }

    /** resizeTheTable: a fresh table whose size is the smallest prime at
        least twice the capacity, holding every book of the old one exactly
        once. The rehash still reads the old array's length, so every book
        lands below the old capacity and the slots above it stay empty. */
    method ResizeTheTable()
      requires Valid()
      modifies this`libraryEntries, this`libraryCapacity
      ensures Valid() && fresh(libraryEntries)
      ensures IsNextPrime(old(libraryCapacity) * RESIZE, libraryCapacity)
      ensures libraryEntries[..] == Rehashed(old(libraryEntries[..]), old(libraryCapacity), libraryCapacity)
      ensures multiset(LiveBooks(libraryEntries[..])) == multiset(LiveBooks(old(libraryEntries[..])))
      ensures forall i :: old(libraryCapacity) <= i < libraryCapacity ==> libraryEntries[i].None?
    {
      var newCapacity := GetNextPrime(libraryCapacity * RESIZE);
      var newTable := new Option<Book>[newCapacity](_ => None);
      RehashAll(newTable);
      RehashedKeepsBooks(libraryEntries[..], libraryCapacity, newCapacity);
      assert |multiset(LiveBooks(newTable[..]))| == |multiset(LiveBooks(libraryEntries[..]))|;
      PrimeAboveTwoIsOdd(newCapacity);
      libraryEntries := newTable;
      libraryCapacity := newCapacity;
    }
  }

  /** A search right after an insert, with at least two books in the
      library, finds a book with the inserted key; with fewer than two books
      the search divides by zero. */
  method AddThenSearch(library: LibrarySystem, book: Book)
      returns (added: Completion<bool>, found: Completion<Option<Book>>)
    requires library.Valid()
    modifies library, library.libraryEntries
    ensures library.Valid()
    ensures added.Returned? ==> (found.Returned? <==> library.booksInTheLibrary >= 2)
    ensures added.Returned? && found.Returned? ==> found.value.Some? && found.value.value.key == book.key
  {
    ghost var probed, a;
    added, probed, a := library.AddBookData(book);
    found := library.SearchBook(book);
    if added.Returned? {
      SearchFindsInsert(probed, book, a);
    }
  }

  /** A search right after a successful delete, with at least two books
      left in the library, reports the key missing; with fewer than two the
      search divides by zero. */
  method DeleteThenSearch(library: LibrarySystem, book: Book) returns (deleted: Completion<bool>, found: Completion<Option<Book>>)
    requires library.Valid()
    modifies library, library.libraryEntries
    ensures library.Valid()
    ensures deleted == Returned(true) ==> (found.Returned? <==> library.booksInTheLibrary >= 2)
    ensures deleted == Returned(true) && found.Returned? ==> found.value == None
  {
    ghost var t := library.libraryEntries[..];
    ghost var a;
    deleted, a := library.DeleteBookData(book);
    found := library.SearchBook(book);
    if deleted == Returned(true) {
      SearchAfterDeleteMisses(t, book.key, a);
    }
  }
}

=== FILE: primes.dfy ===
/** Primality test and next-prime search of the library's hash table
    (LibrarySystem.isPrime and LibrarySystem.getNextPrime). Both use no state
    of the table, so they are module-level methods here. */
module Primes {
  import opened Arithmetic

  /** d is a positive divisor of n. */
  predicate Divides(d: int, n: int) {
    d > 0 && n % d == 0
  }

  /** The mathematical definition: n > 1 and nothing in [2, n) divides n. */
  ghost predicate Prime(n: int) {
    n > 1 && forall d :: 2 <= d < n ==> !Divides(d, n)
  }

  /** The test isPrime runs: no d >= 2 with d * d <= n divides n
      (isPrime bounds d by Math.sqrt(n); for these integers
      d <= sqrt(n) holds exactly when d * d <= n). */
  ghost predicate PassesTrialDivision(n: int) {
    forall d :: 2 <= d && d * d <= n ==> !Divides(d, n)
  }

  /** p is the smallest prime that is at least n. */
  ghost predicate IsNextPrime(n: int, p: int) {
    p >= n && Prime(p) && forall k :: n <= k < p ==> !Prime(k)
  }

  lemma SquareMonotone(a: int, b: int)
    requires 0 <= a <= b
    ensures a * a <= b * b
  {
    assert b * b - a * a == (b - a) * (b + a);
  }

  lemma DividesTransitive(p: int, d: int, m: int)
    requires Divides(p, d) && Divides(d, m)
    ensures Divides(p, m)
  {
    var j, k := d / p, m / d;
    assert d == p * j;
    assert m == d * k;
    assert m == p * (j * k);
    MultipleMod(p, j * k);
  }

  /** A divisor d of n with d * d > n has a cofactor e with e * e <= n. */
  lemma SmallCofactor(n: int, d: int) returns (e: int)
    requires 2 <= d < n && Divides(d, n) && d * d > n
    ensures 2 <= e && e * e <= n && Divides(e, n)
  {
    e := n / d;
    assert n == d * e;
    assert e >= 2;
    assert e * e <= n;
    MultipleMod(e, d);
    assert n == e * d;
  }

  /** isPrime's trial division up to the square root decides primality. */
  lemma {:induction false} PrimeIffTrialDivision(n: int)
    ensures Prime(n) <==> n > 1 && PassesTrialDivision(n)
  {
    if n > 1 && PassesTrialDivision(n) {
      forall d | 2 <= d < n
        ensures !Divides(d, n)
      {
        if Divides(d, n) {
          if d * d <= n {
            assert false;
          }
          var e := SmallCofactor(n, d);
          assert false;
        }
      }
    }
    if Prime(n) {
      forall d | 2 <= d && d * d <= n
        ensures !Divides(d, n)
      {
        MulAtLeast(d, d);
        assert d * d >= 2 * d by { assert d * d - 2 * d == d * (d - 2); }
      }
    }
  }

  /** isPrime: false for numbers up to 1; otherwise trial division by every
      d from 2 while d * d <= number. */
  method IsPrime(number: int) returns (r: bool)
    ensures r <==> number > 1 && PassesTrialDivision(number)
    ensures r <==> Prime(number)
  {
    PrimeIffTrialDivision(number);
    if number <= 1 {
      return false;
    }
    var n := 2;
    while n * n <= number
      invariant 2 <= n
      invariant forall d :: 2 <= d < n ==> !Divides(d, number)
      decreases number - n
    {
      MulAtLeast(n, n);
      if number % n == 0 {
        assert Divides(n, number);
        return false;
      }
      n := n + 1;
    }
    forall d | 2 <= d && d * d <= number
      ensures !Divides(d, number)
    {
      if d >= n {
        SquareMonotone(n, d);
      }
    }
    return true;
  }

  function Factorial(n: nat): (r: nat)
    ensures r >= 1
  {
    if n == 0 then 1 else MulAtLeast(Factorial(n - 1), n); n * Factorial(n - 1)
  }

  lemma {:induction false} FactorialDivisible(n: nat, d: int)
    requires 1 <= d <= n
    ensures Divides(d, Factorial(n))
  {
    if d == n {
      MultipleMod(n, Factorial(n - 1));
    } else {
      FactorialDivisible(n - 1, d);
      MultipleMod(Factorial(n - 1), n);
      DividesTransitive(d, Factorial(n - 1), Factorial(n));
    }
  }

  /** No p >= 2 divides both a and a + 1. */
  lemma NotDividesSuccessor(p: int, a: int)
    requires p >= 2 && Divides(p, a)
    ensures !Divides(p, a + 1)
  {
    assert a == p * (a / p);
    ModUnique(a + 1, p, a / p, 1);
  }

  lemma {:induction false} PrimeDivisor(m: int) returns (p: int)
    requires m >= 2
    ensures Prime(p) && Divides(p, m)
    decreases m
  {
    if Prime(m) {
      p := m;
      ModUnique(m, m, 1, 0);
    } else {
      var d :| 2 <= d < m && Divides(d, m);
      p := PrimeDivisor(d);
      DividesTransitive(p, d, m);
    }
  }

  /** Euclid: above every number lies a prime (a prime factor of N! + 1). */
  lemma PrimeAtLeast(n: int) returns (p: int)
    ensures Prime(p) && p >= n
  {
    var big: nat := if n < 2 then 2 else n;
    p := PrimeDivisor(Factorial(big) + 1);
    if p <= big {
      FactorialDivisible(big, p);
      NotDividesSuccessor(p, Factorial(big));
      assert false;
    }
  }

  /** Every prime above 2 is odd. */
  lemma PrimeAboveTwoIsOdd(p: int)
    requires Prime(p) && p > 2
    ensures p % 2 == 1
  {
    assert !Divides(2, p);
  }

  /** getNextPrime: count upward from number until isPrime holds. */
  method GetNextPrime(number: int) returns (p: int)
    ensures IsNextPrime(number, p)
  {
    ghost var bound := PrimeAtLeast(number);
    p := number;
    var found := IsPrime(p);
    while !found
      invariant number <= p <= bound
      invariant found <==> Prime(p)
      invariant forall k :: number <= k < p ==> !Prime(k)
      decreases bound - p
    {
      p := p + 1;
      found := IsPrime(p);
    }
  }
}

=== FILE: probing.dfy ===
/** Option and the way a Java call completes. */
module Results {
  datatype Option<T> = None | Some(value: T)

  /** A call either returns a value or throws ArithmeticException because an
      integer `%` met a zero divisor (the only exception the core can raise
      on the inputs modelled). */
  datatype Completion<T> = Returned(value: T) | DivisionByZero
}

/** The table's slots as a value, the double-hashing probe sequence and the
    reference definition of the search loop, with the facts about them that
    the operations of LibrarySystem rely on. */
module Probing {
  import opened Arithmetic
  import opened Results

  /** A catalogue record. The table looks only at `key`, the non-negative
      number the Java code takes from a book to hash it and to compare it
      (numericValue and getKey); the other fields travel with the book. */
  datatype Book = Book(key: nat, title: string, author: string, publication: string, synopsis: string,
                       version: string, isbn: string, edition: int)

  /** The slots of the table; None is an empty (null) slot. */
  type Slots = seq<Option<Book>>

  /** The secondary hash whenever it is defined: secondaryHash computes
      `prime - key % prime`, and the prime its scan settles on is 2. */
  function Step(key: nat): (s: nat)
    ensures 1 <= s <= 2 && (s == 1 <==> key % 2 == 1)
  {
    2 - key % 2
  }

  /** Slot visited by probe number a: (primaryHash + a * secondaryHash) mod
      capacity. Probe 0 is the key's home slot, key mod capacity. */
  function ProbeSlot(key: nat, cap: nat, a: nat): (i: nat)
    requires cap > 0
    ensures i < cap
    ensures a == 0 ==> i == key % cap
  {
    ModUnique(key % cap, cap, 0, key % cap);
    (key % cap + a * Step(key)) % cap
  }

  /** Probe number a lands on slot j when the home slot plus a steps is j
      plus at most two capacities. */
  lemma ProbeHits(key: nat, cap: nat, j: nat, a: nat, x: nat)
    requires j < cap && x == key % cap + a * Step(key)
    requires x == j || x == j + cap || x == j + 2 * cap
    ensures ProbeSlot(key, cap, a) == j
  {
    if x == j {
      ModUnique(x, cap, 0, j);
    } else if x == j + cap {
      ModUnique(x, cap, 1, j);
    } else {
      ModUnique(x, cap, 2, j);
    }
  }

  /** Half of d modulo an odd cap: a number of steps of 2 that covers
      the distance d, possibly going once around the table. */
  lemma HalfModOdd(d: nat, cap: nat) returns (a: nat)
    requires cap % 2 == 1 && d < cap
    ensures a < cap && (2 * a == d || 2 * a == d + cap)
  {
    if d % 2 == 0 {
      a := d / 2;
    } else {
      a := (d + cap) / 2;
    }
  }

  /** In a table of odd capacity the probe sequence of any key visits every
      slot within its first `cap` probes: the step is 1 or 2, and 2 is a unit
      modulo an odd number. */
  lemma ProbeCovers(key: nat, cap: nat, j: nat) returns (a: nat)
    requires cap % 2 == 1 && j < cap
    ensures a < cap && ProbeSlot(key, cap, a) == j
  {
    var h := key % cap;
    var d: nat := if j >= h then j - h else j - h + cap;
    assert d < cap && (h + d == j || h + d == j + cap);
    if Step(key) == 1 {
      a := d;
      ProbeHits(key, cap, j, a, h + d);
    } else {
      a := HalfModOdd(d, cap);
      assert a * Step(key) == 2 * a;
      ProbeHits(key, cap, j, a, h + 2 * a);
    }
  }

  /** With an even capacity the probe sequence of an even key only ever
      visits even slots: half of the table is unreachable, so an insert whose
      reachable slots are all taken probes forever. */
  lemma EvenCapacityProbeStaysEven(key: nat, cap: nat, a: nat)
    requires cap > 0 && cap % 2 == 0 && key % 2 == 0
    ensures ProbeSlot(key, cap, a) % 2 == 0
  {
    var c, q, h := cap / 2, key / cap, key % cap;
    var m := key / 2 - c * q;
    assert cap * q == 2 * (c * q);
    assert h == 2 * m;
    var x := h + a * Step(key);
    assert x == 2 * (m + a);
    var y := x / cap;
    assert cap * y == 2 * (c * y);
    ModUnique(x % cap, 2, m + a - c * y, 0);
  }

  /** The books in the occupied slots, in slot order. */
  function LiveBooks(t: Slots): (s: seq<Book>)
    ensures |s| <= |t|
  {
    if t == [] then []
    else LiveBooks(t[..|t| - 1]) + (if t[|t| - 1].Some? then [t[|t| - 1].value] else [])
  }

  lemma LiveBooksSnoc(t: Slots, x: Option<Book>)
    ensures LiveBooks(t + [x]) == LiveBooks(t) + (if x.Some? then [x.value] else [])
  {
    assert (t + [x])[..|t|] == t;
  }

  /** Filling an empty slot adds exactly that book to the live books. */
  lemma {:induction false} LiveBooksPlace(t: Slots, i: nat, b: Book)
    requires i < |t| && t[i].None?
    ensures multiset(LiveBooks(t[i := Some(b)])) == multiset(LiveBooks(t)) + multiset{b}
    ensures |LiveBooks(t[i := Some(b)])| == |LiveBooks(t)| + 1
    decreases |t|
  {
    var u := t[i := Some(b)];
    var n := |t| - 1;
    if i == n {
      assert u[..n] == t[..n];
    } else {
      assert u[..n] == t[..n][i := Some(b)];
      LiveBooksPlace(t[..n], i, b);
    }
  }

  /** Emptying an occupied slot removes exactly that book from the live books. */
  lemma LiveBooksClear(t: Slots, i: nat)
    requires i < |t| && t[i].Some?
    ensures multiset(LiveBooks(t[i := None])) == multiset(LiveBooks(t)) - multiset{t[i].value}
    ensures |LiveBooks(t[i := None])| + 1 == |LiveBooks(t)|
  {
    var u := t[i := None];
    assert u[i := Some(t[i].value)] == t;
    LiveBooksPlace(u, i, t[i].value);
  }

  /** The live books of a table are none exactly when every slot is empty. */
  lemma {:induction false} NoLiveBooksIffAllEmpty(t: Slots)
    ensures LiveBooks(t) == [] <==> forall i :: 0 <= i < |t| ==> t[i].None?
    decreases |t|
  {
    if t != [] {
      var n := |t| - 1;
      NoLiveBooksIffAllEmpty(t[..n]);
      assert forall i :: 0 <= i < n ==> t[..n][i] == t[i];
    }
  }

  /** Fewer live books than slots leaves an empty slot. */
  lemma {:induction false} FreeSlot(t: Slots) returns (j: nat)
    requires |LiveBooks(t)| < |t|
    ensures j < |t| && t[j].None?
    decreases |t|
  {
    var n := |t| - 1;
    if t[n].None? {
      j := n;
    } else {
      j := FreeSlot(t[..n]);
    }
  }

  /** A prefix holds no more live books than the whole table. */
  lemma {:induction false} LiveBooksPrefix(t: Slots, k: nat)
    requires k <= |t|
    ensures |LiveBooks(t[..k])| <= |LiveBooks(t)|
    decreases |t|
  {
    if k < |t| {
      var n := |t| - 1;
      assert t[..n][..k] == t[..k];
      LiveBooksPrefix(t[..n], k);
    } else {
      assert t[..k] == t;
    }
  }

  /** Empty slots after position m contribute no live books. */
  lemma {:induction false} LiveBooksEmptyTail(t: Slots, m: nat)
    requires m <= |t|
    requires forall i :: m <= i < |t| ==> t[i].None?
    ensures LiveBooks(t[..m]) == LiveBooks(t)
    decreases |t|
  {
    if m < |t| {
      var n := |t| - 1;
      assert t[..n][..m] == t[..m];
      LiveBooksEmptyTail(t[..n], m);
    } else {
      assert t[..m] == t;
    }
  }

  /** A table whose books all lie below m and number fewer than m has an
      empty slot below m. */
  lemma RoomBelow(t: Slots, m: nat) returns (j: nat)
    requires m <= |t| && |LiveBooks(t)| < m
    requires forall i :: m <= i < |t| ==> t[i].None?
    ensures j < m && t[j].None?
  {
    LiveBooksEmptyTail(t, m);
    j := FreeSlot(t[..m]);
  }

  /** Copying slots 0 .. i-1 of src into a table and then an occupied slot i
      leaves the copy with fewer live books than src has. */
  lemma CopyHasRoom(src: Slots, i: nat, copy: Slots)
    requires i < |src| && src[i].Some?
    requires multiset(LiveBooks(copy)) == multiset(LiveBooks(src[..i]))
    ensures |LiveBooks(copy)| < |LiveBooks(src)|
  {
    calc {
      |LiveBooks(copy)|;
      |multiset(LiveBooks(copy))|;
      |multiset(LiveBooks(src[..i]))|;
      |LiveBooks(src[..i])|;
    }
    assert src[..i + 1] == src[..i] + [src[i]];
    LiveBooksSnoc(src[..i], src[i]);
    LiveBooksPrefix(src, i + 1);
  }

  /** Probe number a of key reaches an empty slot, and every earlier probe
      met an occupied one: where addBookData's loop stores the book. */
  ghost predicate FirstEmptyProbe(t: Slots, key: nat, a: nat)
    requires |t| > 0
  {
    && t[ProbeSlot(key, |t|, a)].None?
    && forall c :: 0 <= c < a ==> t[ProbeSlot(key, |t|, c)].Some?
  }

  /** Probes 0 .. a-1 of key all met books with other keys: the slots
      deleteBookData's loop passes over. */
  ghost predicate PassesOver(t: Slots, key: nat, a: nat)
    requires |t| > 0
  {
    forall c :: 0 <= c < a ==> DeleteProbeMovesOn(t, key, c)
  }

  /** The test of deleteBookData's loop at probe number a: it moves on
      when the slot holds a book whose key differs, and only then. */
  predicate DeleteProbeMovesOn(t: Slots, key: nat, a: nat)
    requires |t| > 0
  {
    var i := ProbeSlot(key, |t|, a);
    t[i].Some? && t[i].value.key != key
  }

  /** Passing over `cap` probes of an odd-capacity table means every slot
      holds a book with another key. */
  lemma PassesOverAll(t: Slots, key: nat)
    requires |t| % 2 == 1
    requires PassesOver(t, key, |t|)
    ensures forall i :: 0 <= i < |t| ==> t[i].Some? && t[i].value.key != key
  {
    forall i | 0 <= i < |t|
      ensures t[i].Some? && t[i].value.key != key
    {
      var a := ProbeCovers(key, |t|, i);
      assert DeleteProbeMovesOn(t, key, a);
    }
  }

  /** deleteBookData's loop as written, over unbounded integers, never stops
      on a full table that lacks the key (with 32-bit ints it runs until the
      probe arithmetic overflows and the index goes out of bounds): three
      books with keys 0, 1 and 2 fill a table of capacity 3 (two or more
      books, so the step is defined), and every probe
      of a delete of key 3 moves on. */
  lemma FullTableDeleteProbesForever(a: nat)
    ensures var t := [Some(Book(0, "", "", "", "", "", "", 0)), Some(Book(1, "", "", "", "", "", "", 0)), Some(Book(2, "", "", "", "", "", "", 0))];
            DeleteProbeMovesOn(t, 3, a)
  {
  }

  /** searchBook's loop from probe number `retrieve` on: an empty slot ends
      the search with None, the first book with the key is the result, and
      after |t| probes the search gives up with None. */
  function SearchFrom(t: Slots, key: nat, retrieve: nat): (r: Option<Book>)
    requires |t| > 0
    ensures r.Some? ==> r.value.key == key && r in t
    decreases |t| - retrieve
  {
    if retrieve >= |t| then None
    else
      var i := ProbeSlot(key, |t|, retrieve);
      if t[i].None? then None
      else if t[i].value.key == key then t[i]
      else SearchFrom(t, key, retrieve + 1)
  }

  /** The search walks the probe sequence up to a book with the key. */
  lemma {:induction false} SearchReaches(t: Slots, key: nat, k: nat, a: nat)
    requires k <= a < |t|
    requires forall c :: k <= c < a ==> t[ProbeSlot(key, |t|, c)].Some?
    requires t[ProbeSlot(key, |t|, a)].Some? && t[ProbeSlot(key, |t|, a)].value.key == key
    ensures SearchFrom(t, key, k).Some?
    decreases a - k
  {
    if k < a {
      SearchReaches(t, key, k + 1, a);
    }
  }

  /** The search walks past books with other keys up to an empty slot and
      answers nothing. */
  lemma {:induction false} SearchStopsAtHole(t: Slots, key: nat, k: nat, a: nat)
    requires k <= a < |t|
    requires forall c :: k <= c < a ==> DeleteProbeMovesOn(t, key, c)
    requires t[ProbeSlot(key, |t|, a)].None?
    ensures SearchFrom(t, key, k) == None
    decreases a - k
  {
    if k < a {
      assert DeleteProbeMovesOn(t, key, k);
      SearchStopsAtHole(t, key, k + 1, a);
    }
  }

  /** A search right after a successful delete, with nothing in between,
      misses the key: the delete emptied the first slot along the key's
      probe sequence that held it, having passed only books with other keys,
      and there is no tombstone, so the search stops at the hole. A second
      book with the same key further along the sequence is hidden too. */
  lemma SearchAfterDeleteMisses(t: Slots, key: nat, a: nat)
    requires |t| % 2 == 1 && PassesOver(t, key, a)
    requires t[ProbeSlot(key, |t|, a)].Some? && t[ProbeSlot(key, |t|, a)].value.key == key
    ensures SearchFrom(t[ProbeSlot(key, |t|, a) := None], key, 0) == None
  {
    var i := ProbeSlot(key, |t|, a);
    if a >= |t| {
      PassesOverAll(t, key);
      assert false;
    }
    var u := t[i := None];
    forall c | 0 <= c < a
      ensures DeleteProbeMovesOn(u, key, c)
    {
      assert DeleteProbeMovesOn(t, key, c);
    }
    SearchStopsAtHole(u, key, 0, a);
  }

  /** A search right after an insert, with nothing in between, finds a book
      with the inserted key: the insert stored it on the first empty slot of
      the very probe sequence the search walks, and in an odd-capacity table
      that slot is reached within the search's |t| probes. */
  lemma SearchFindsInsert(t: Slots, b: Book, a: nat)
    requires |t| % 2 == 1
    requires FirstEmptyProbe(t, b.key, a)
    ensures var r := SearchFrom(t[ProbeSlot(b.key, |t|, a) := Some(b)], b.key, 0);
            r.Some? && r.value.key == b.key
  {
    var s := ProbeSlot(b.key, |t|, a);
    var a' := ProbeCovers(b.key, |t|, s);
    assert a <= a';
    var u := t[s := Some(b)];
    forall c | 0 <= c < a
      ensures u[ProbeSlot(b.key, |u|, c)].Some?
    {
      assert t[ProbeSlot(b.key, |t|, c)].Some?;
    }
    SearchReaches(u, b.key, 0, a);
  }

  /** Right after resizeTheTable every book lies below the old capacity, but
      a search probes modulo the new one: a key whose home slot in the new
      table is at or above the old capacity is reported missing, whether or
      not a book with that key is in the table. */
  lemma ResizedTableHidesKeys(u: Slots, oldCap: nat, key: nat)
    requires 0 < |u| && oldCap <= |u| && forall i :: oldCap <= i < |u| ==> u[i].None?
    requires key % |u| >= oldCap
    ensures SearchFrom(u, key, 0) == None
  {
  }

  /** The first probe number from a on, below cap, whose slot in t is
      empty, probing modulo cap; cap when all of them are taken. */
  function FirstEmptyFrom(t: Slots, key: nat, cap: nat, a: nat): (p: nat)
    requires 0 < cap <= |t|
    ensures p <= cap && (a <= cap ==> a <= p)
    ensures p < cap ==> t[ProbeSlot(key, cap, p)].None?
    ensures forall c :: a <= c < p && c < cap ==> t[ProbeSlot(key, cap, c)].Some?
    decreases cap - a
  {
    if a >= cap then cap
    else if t[ProbeSlot(key, cap, a)].None? then a
    else FirstEmptyFrom(t, key, cap, a + 1)
  }

  /** An empty probe with every earlier probe taken is the first empty one. */
  lemma FirstEmptyFromIs(t: Slots, key: nat, cap: nat, p: nat)
    requires 0 < cap <= |t| && p < cap
    requires t[ProbeSlot(key, cap, p)].None?
    requires forall c :: 0 <= c < p ==> t[ProbeSlot(key, cap, c)].Some?
    ensures FirstEmptyFrom(t, key, cap, 0) == p
  {
  }

  /** With odd cap, fewer than cap books and nothing at or above cap, some
      probe below cap is empty. */
  lemma FirstEmptyFound(t: Slots, key: nat, cap: nat)
    requires 0 < cap <= |t| && cap % 2 == 1 && |LiveBooks(t)| < cap
    requires forall j :: cap <= j < |t| ==> t[j].None?
    ensures FirstEmptyFrom(t, key, cap, 0) < cap
  {
    var j := RoomBelow(t, cap);
    var a := ProbeCovers(key, cap, j);
  }

  /** One step of resizeTheTable's loop as a value: an empty old slot
      changes nothing; a book goes on the first empty slot of its probe
      sequence taken modulo cap (a book finding no empty slot among its first
      cap probes would be dropped; PlaceKeepsBooks shows that with room below
      cap this does not happen). */
  function Place(t: Slots, x: Option<Book>, cap: nat): (u: Slots)
    requires 0 < cap <= |t|
    ensures |u| == |t|
    ensures x.None? ==> u == t
    ensures forall j :: 0 <= j < |t| && t[j].Some? ==> u[j] == t[j]
  {
    if x.None? then t
    else
      var p := FirstEmptyFrom(t, x.value.key, cap, 0);
      if p < cap then t[ProbeSlot(x.value.key, cap, p) := x] else t
  }

  /** resizeTheTable's loop as a value: the slots of src placed in order
      into newLen empty slots, probing modulo cap. */
  function Rehashed(src: Slots, cap: nat, newLen: nat): (u: Slots)
    requires 0 < cap <= newLen
    ensures |u| == newLen
    decreases |src|
  {
    if src == [] then seq(newLen, _ => None)
    else Place(Rehashed(src[..|src| - 1], cap, newLen), src[|src| - 1], cap)
  }

  /** With odd cap, fewer than cap books and nothing at or above cap, a
      placement adds exactly the placed book and keeps the slots at or above
      cap empty. */
  lemma PlaceKeepsBooks(t: Slots, x: Option<Book>, cap: nat)
    requires 0 < cap <= |t| && cap % 2 == 1 && (x.Some? ==> |LiveBooks(t)| < cap)
    requires forall j :: cap <= j < |t| ==> t[j].None?
    ensures multiset(LiveBooks(Place(t, x, cap))) ==
            multiset(LiveBooks(t)) + (if x.Some? then multiset{x.value} else multiset{})
    ensures forall j :: cap <= j < |t| ==> Place(t, x, cap)[j].None?
  {
    if x.Some? {
      FirstEmptyFound(t, x.value.key, cap);
      LiveBooksPlace(t, ProbeSlot(x.value.key, cap, FirstEmptyFrom(t, x.value.key, cap, 0)), x.value);
    }
  }

  /** The rehash keeps every book exactly once and leaves the slots at or
      above the modulus empty, when the modulus is odd and no smaller than
      the number of books. */
  lemma {:induction false} RehashedKeepsBooks(src: Slots, cap: nat, newLen: nat)
    requires 0 < cap <= newLen && cap % 2 == 1 && |LiveBooks(src)| <= cap
    ensures multiset(LiveBooks(Rehashed(src, cap, newLen))) == multiset(LiveBooks(src))
    ensures forall j :: cap <= j < newLen ==> Rehashed(src, cap, newLen)[j].None?
    decreases |src|
  {
    if src == [] {
      NoLiveBooksIffAllEmpty(Rehashed(src, cap, newLen));
    } else {
      var n := |src| - 1;
      assert src == src[..n] + [src[n]];
      LiveBooksSnoc(src[..n], src[n]);
      RehashedKeepsBooks(src[..n], cap, newLen);
      var t := Rehashed(src[..n], cap, newLen);
      assert |LiveBooks(t)| == |LiveBooks(src[..n])| by {
        assert |multiset(LiveBooks(t))| == |multiset(LiveBooks(src[..n]))|;
      }
      PlaceKeepsBooks(t, src[n], cap);
    }
  }

  /** The rehash holds as many books as the table it was built from. */
  lemma RehashedCount(src: Slots, cap: nat, newLen: nat)
    requires 0 < cap <= newLen && cap % 2 == 1 && |LiveBooks(src)| <= cap
    ensures |LiveBooks(Rehashed(src, cap, newLen))| == |LiveBooks(src)|
  {
    RehashedKeepsBooks(src, cap, newLen);
    assert |multiset(LiveBooks(Rehashed(src, cap, newLen)))| == |multiset(LiveBooks(src))|;
  }

  /** One more slot of src rehashed: an empty slot changes nothing, and a
      book goes on the first empty probe p of the rehash so far. */
  lemma RehashedStep(src: Slots, i: nat, cap: nat, newLen: nat, p: nat)
    requires 0 < cap <= newLen && i < |src| && p < cap
    requires src[i].Some? ==>
               var t := Rehashed(src[..i], cap, newLen);
               && t[ProbeSlot(src[i].value.key, cap, p)].None?
               && forall c :: 0 <= c < p ==> t[ProbeSlot(src[i].value.key, cap, c)].Some?
    ensures src[i].None? ==> Rehashed(src[..i + 1], cap, newLen) == Rehashed(src[..i], cap, newLen)
    ensures src[i].Some? ==>
              Rehashed(src[..i + 1], cap, newLen) ==
              Rehashed(src[..i], cap, newLen)[ProbeSlot(src[i].value.key, cap, p) := src[i]]
  {
    assert src[..i + 1][..i] == src[..i];
    if src[i].Some? {
      FirstEmptyFromIs(Rehashed(src[..i], cap, newLen), src[i].value.key, cap, p);
    }
  }

  /** Before rehashing an occupied slot i of a table of odd capacity, the
      rehash so far holds fewer books than the table and nothing at or above
      the capacity. */
  lemma RehashedRoom(src: Slots, i: nat, newLen: nat)
    requires 0 < |src| <= newLen && |src| % 2 == 1 && i < |src| && src[i].Some?
    ensures |LiveBooks(Rehashed(src[..i], |src|, newLen))| < |LiveBooks(src)|
    ensures forall j :: |src| <= j < newLen ==> Rehashed(src[..i], |src|, newLen)[j].None?
  {
    LiveBooksPrefix(src, i);
    RehashedKeepsBooks(src[..i], |src|, newLen);
    CopyHasRoom(src, i, Rehashed(src[..i], |src|, newLen));
  }

  /** Every book in the table is found by a search for its key. */
  ghost predicate AllFindable(u: Slots)
    requires |u| > 0
  {
    forall s :: 0 <= s < |u| && u[s].Some? ==> SearchFrom(u, u[s].value.key, 0).Some?
  }

  /** Filling an empty slot does not stop a search that succeeded: the walk
      only passed over taken slots. */
  lemma {:induction false} SearchSurvivesPlace(u: Slots, key: nat, j: nat, p: nat, b: Book)
    requires p < |u| && u[p].None? && SearchFrom(u, key, j).Some?
    ensures SearchFrom(u[p := Some(b)], key, j).Some?
    decreases |u| - j
  {
    var i := ProbeSlot(key, |u|, j);
    if u[i].value.key != key {
      SearchSurvivesPlace(u, key, j + 1, p, b);
    }
  }

  /** Placing a book, modulo the table's own odd length and with room left,
      keeps every book findable. */
  lemma PlaceFindable(t: Slots, x: Option<Book>)
    requires |t| % 2 == 1 && (x.Some? ==> |LiveBooks(t)| < |t|) && AllFindable(t)
    ensures AllFindable(Place(t, x, |t|))
  {
    if x.Some? {
      var n := |t|;
      FirstEmptyFound(t, x.value.key, n);
      var p := FirstEmptyFrom(t, x.value.key, n, 0);
      var slot := ProbeSlot(x.value.key, n, p);
      var u := t[slot := x];
      forall s | 0 <= s < n && u[s].Some?
        ensures SearchFrom(u, u[s].value.key, 0).Some?
      {
        if s == slot {
          SearchFindsInsert(t, x.value, p);
        } else {
          SearchSurvivesPlace(t, t[s].value.key, 0, slot, x.value);
        }
      }
    }
  }

  /** The rehash modulo the new table's own length, with an odd length no
      smaller than the number of books, leaves every book findable. */
  lemma {:induction false} RehashedFindsAll(src: Slots, n: nat)
    requires n % 2 == 1 && |LiveBooks(src)| <= n
    ensures AllFindable(Rehashed(src, n, n))
    decreases |src|
  {
    if src != [] {
      var m := |src| - 1;
      assert src == src[..m] + [src[m]];
      LiveBooksSnoc(src[..m], src[m]);
      RehashedFindsAll(src[..m], n);
      RehashedCount(src[..m], n, n);
      PlaceFindable(Rehashed(src[..m], n, n), src[m]);
    }
  }

  /** An occupied slot's book is among the live books. */
  lemma {:induction false} LiveBooksHas(t: Slots, i: nat)
    requires i < |t| && t[i].Some?
    ensures t[i].value in LiveBooks(t)
    decreases |t|
  {
    var n := |t| - 1;
    if i < n {
      LiveBooksHas(t[..n], i);
    }
  }

  /** The rehash modulo the old capacity hides books: a book of the old
      table whose key has its home slot in the grown table at or above the
      old capacity is in the grown table, yet a search for its key answers
      nothing. (Keys 3, 4 and 5 filling a table of capacity 3 that grows to
      7 slots are such a case for key 3.) */
  lemma RehashedOldCapacityHidesBook(src: Slots, newLen: nat, i: nat)
    requires 0 < |src| <= newLen && |src| % 2 == 1
    requires i < |src| && src[i].Some? && src[i].value.key % newLen >= |src|
    ensures src[i].value in multiset(LiveBooks(Rehashed(src, |src|, newLen)))
    ensures SearchFrom(Rehashed(src, |src|, newLen), src[i].value.key, 0) == None
  {
    RehashedKeepsBooks(src, |src|, newLen);
    LiveBooksHas(src, i);
    ResizedTableHidesKeys(Rehashed(src, |src|, newLen), |src|, src[i].value.key);
  }
}
